=== FILE: README.md ===
# WaterWise decision rules in Dafny

WaterWise is a coursework IoT system for flood prevention on rural
properties. Microcontroller sketches poll temperature, air humidity, soil
moisture and rain, score the flood risk, and publish JSON over HTTP or MQTT.
A small Flask API stores the readings and alerts, using a JSON file when the
Oracle database cannot be reached. This project models the pure decision
rules inside that I/O and proves their properties:

- `FloodRisk` (`flood_risk.dfy`) models the three-sensor scorer `analyzeFloodRisk` of the q1
  sketch. It adds banded soil, rain and temperature points and a +2 bonus for
  dry soil under heavy rain, then clamps the total to [0, 10]. From the total
  it derives the severity code, description, recommendation and flood alert,
  and it computes absorption and runoff metrics. The module also models the
  four-way soil and rain status labels.
- `LegacyRisk` (`legacy_risk.dfy`) models the older scorer `analyzeRisk` of the
  `waterwise` sketch and the `riskLevel >= 5` gate of its `publishAlert`.
- `RainGauge` (`rain_gauge.dfy`) models the tipping-bucket gauge. It covers the debounced tip
  interrupt, the volume and intensity arithmetic, the intensity classes and
  alert levels, the saturation-time and remaining-capacity estimates, the
  ten-second report cycle, and the remote and daily counter resets.
- `SoilProbe` (`soil_probe.dfy`) models the soil-moisture probe: its status label, its flood
  flag, its emergency alert, and the 30-second cycle that skips a NaN
  reading.
- `FallbackStore` (`fallback_store.dfy`) models the JSON-file fallback of the API. It covers
  required-field validation, Python's `int()`/`float()` on JSON values, the
  reading append with the trim to the newest 100, the alert append, id
  assignment, and the newest-first listing.
- `Uint32` (`uint32.dfy`) models the boards' 32-bit `unsigned long` clock
  arithmetic, which wraps around. `Wrappers` (`wrappers.dfy`) holds `Option`.

Types follow the sources:
- Sensor `float`s are `real`s.
- `millis()` values are `U32`. Subtraction on them wraps modulo 2^32.
- Global and `static` variables become one immutable state value. Each
  step takes that value as input and returns the next one.
- Clocks, the outcome of writing the fallback file and NaN readings are
  parameters. A NaN reading is `None`.

Three facts about the q1 scorer are easy to miss:
- Before the clamp to [0, 10], its score reaches at most 12 (4 + 5 + 1 + 2).
- `analyzeFloodRisk` does not clamp its input percentages.
- Its descriptions are the sketch's Portuguese strings, such as
  "Baixo - Condições normais".

## Model

| member | source | states |
|---|---|---|
| FloodRisk.AnalyzeFloodRisk | q1/src/main.cpp:201-298 | level in [0,10] and equal to the raw sum capped at 10; floodAlert iff level >= 7; severity BAIXO iff level <= 2, MEDIO iff 3-4, ALTO iff 5-6, CRITICO iff floodAlert; the description and recommendation of each of the five level bands (<= 2, 3-4, 5-6, 7-8, 9-10); droughtAlert iff soil < 15; extremeWeatherAlert iff temperature > 35; absorption + soil = 100; runoff >= 0, >= rain - 0.8*soil, and equal to 0 or to that difference |
| FloodRisk.Constrain | q1/src/main.cpp:257 | Arduino `constrain`: result in [lo,hi], identity inside, lo below, hi above |
| FloodRisk.RawScoreRange | q1/src/main.cpp:209-257 | the raw sum lies in [0,12]; soil 0, rain 100, temperature 50 reaches 12 and is clamped to 10, so the clamp matters |
| FloodRisk.SoilBoundaryScenario | q1/src/main.cpp:210-218 | soil exactly 15 (rain 0, temperature 20) takes the +3 band: level 3, no drought alert, MEDIO, no flood alert |
| FloodRisk.CriticalCombinationScenario | q1/src/main.cpp:249-291 | soil 20, rain 85, temperature 20 scores 3 + 5 + 2 = 10: flood alert, no drought alert, CRITICO, evacuation recommended |
| FloodRisk.BonusIff | q1/src/main.cpp:249-254 | the raw sum exceeds the three band contributions by exactly 2 iff soil < 25 and rain > 70 (thresholds distinct from the band edges) |
| FloodRisk.HeatAddsOne | q1/src/main.cpp:242-247 | switching temperature from at most 35 to above 35 adds exactly 1 to the raw sum and sets extremeWeatherAlert |
| FloodRisk.SoilPointsAntitone | q1/src/main.cpp:209-222 | the soil contribution never rises with wetter soil |
| FloodRisk.RainPointsMonotone | q1/src/main.cpp:224-240 | the rain contribution never falls with heavier rain |
| FloodRisk.ConstrainMonotone | q1/src/main.cpp:256-257 | clamping to [0,10] preserves order |
| FloodRisk.DrierSoilNeverLowersRisk | q1/src/main.cpp:209-257 | lowering soil moisture, other readings fixed, never lowers the risk level |
| FloodRisk.HeavierRainNeverLowersRisk | q1/src/main.cpp:224-257 | raising rain intensity, other readings fixed, never lowers the risk level |
| FloodRisk.SeverityMonotone | q1/src/main.cpp:263-293 | severity never falls as the level rises, and once CRITICO stays CRITICO |
| FloodRisk.SoilStatusOf | q1/src/main.cpp:372-388 | soil status is Critico iff < 20, Seco iff in [20,40), Normal iff in [40,70), Saturado iff >= 70 |
| FloodRisk.RainStatusOf | q1/src/main.cpp:390-406 | rain status is SemChuva iff < 10, Leve iff in [10,30), Moderada iff in [30,70), Intensa iff >= 70 |
| FloodRisk.StatusLabelsMonotone | q1/src/main.cpp:372-406 | a larger reading never gets a lower soil or rain label |
| LegacyRisk.AnalyzeRisk | waterwise/src/main.cpp:148-186 | droughtRisk iff soil < 20; floodRisk iff rain > 70 and soil < 30; extremeWeather iff temperature > 35; level in {0,2,3,5,7,8,10}; the final description depends on the level only and is never the flood message set on the way |
| LegacyRisk.LevelIsWeightedSum | waterwise/src/main.cpp:155-172 | the level is 3 per drought, 5 per flood and 2 per heat flag, nothing more |
| LegacyRisk.PublishAlert | waterwise/src/main.cpp:224-248 | an alert is built iff the level is at least 5; it carries the analysed level as severity, the level's description as message, the clock reading as timestamp, and the soil, rain and temperature readings |
| LegacyRisk.AlertIff | waterwise/src/main.cpp:224-227 | an alert goes out iff floodRisk, or droughtRisk together with extremeWeather |
| LegacyRisk.DroughtAndHeatAlertWithoutFlood | waterwise/src/main.cpp:155-183 | soil 10, temperature 36, no rain: no flood condition, yet an alert of severity 5 with "Risco médio - atenção" is published |
| Uint32.Sub | waterwise-iot/src/sensor_chuva.cpp:34 | unsigned `a - b`: the plain difference when b <= a, the difference plus 2^32 when b > a |
| Uint32.SubAddRoundTrip | waterwise-iot/src/sensor_chuva.cpp:153-154 | the time measured from `since` to `since + delta` is `delta`, across the clock's wrap |
| RainGauge.RainInterrupt | waterwise-iot/src/sensor_chuva.cpp:30-39 | a tip is counted iff more than 100 ms elapsed since the last counted tip (with wrap-around); the count rises by 0 or 1; lastTipTime changes only when a tip is counted, and then to now; other state untouched |
| RainGauge.TipBurst | waterwise-iot/src/sensor_chuva.cpp:30-39 | over a sequence of edges the count rises by at most one per edge and never falls |
| RainGauge.BounceIgnored | waterwise-iot/src/sensor_chuva.cpp:33-34 | an edge 50 ms (wrapping) after a counted tip changes nothing, for every state |
| RainGauge.DebounceAcrossWrap | waterwise-iot/src/sensor_chuva.cpp:24-36 | a tip 110 ms after one counted just before the wrap is counted, though now < lastTipTime |
| RainGauge.Classify | waterwise-iot/src/sensor_chuva.cpp:170-186 | exactly one class: SEM_CHUVA iff 0, FRACA iff nonzero and < 2.5, MODERADA iff in [2.5,10), FORTE iff in [10,50), MUITO_FORTE iff >= 50; ATENCAO iff FORTE, EMERGENCIA iff MUITO_FORTE, level not NORMAL iff intensity >= 10 |
| RainGauge.SaturationTime | waterwise-iot/src/sensor_chuva.cpp:249-262 | -1 iff intensity <= 25; otherwise positive, and time times excess intensity equals 50 mm * 60 |
| RainGauge.SaturationTimeDecreasing | waterwise-iot/src/sensor_chuva.cpp:249-262 | above 25 mm/h, heavier rain gives strictly less time before saturation |
| RainGauge.RemainingCapacity | waterwise-iot/src/sensor_chuva.cpp:264-270 | max(0, 75 - volume): non-negative, at least 75 - volume, equal to 0 or to it, at most 75 for a non-negative volume |
| RainGauge.Measure | waterwise-iot/src/sensor_chuva.cpp:153-211 | volume = tips * 0.2794; intensity = (tips - lastTipCount) * 100.584; lastTipCount catches up with tipCount; flood risk iff intensity > 25; class and alert level are the classification of the intensity; saturation time is the estimate for the intensity and -1 iff no flood risk; remaining capacity is the estimate for the volume; action required iff level not NORMAL; emergency alert iff EMERGENCIA; timestamp, rain flag and analog reading as given |
| RainGauge.ResetCounters | waterwise-iot/src/sensor_chuva.cpp:96-100 | tipCount and rainVolume become 0; lastTipCount, lastTipTime and lastMsg are untouched |
| RainGauge.DailyReset | waterwise-iot/src/sensor_chuva.cpp:240-245 | either the counter and volume are zero afterwards or nothing changed; the counter is zero afterwards iff it was zero or it was positive at a whole-second uptime that is a multiple of 86400; lastTipCount, lastTipTime and lastMsg are never touched |
| RainGauge.ReportCycle | waterwise-iot/src/sensor_chuva.cpp:147-246 | a report is produced iff more than 10 s elapsed (with wrap-around) since the last; without one the state is unchanged; with one lastMsg becomes now, lastTipCount the pre-reset count, the report is the measurement with intensity (tips - lastTipCount) * 100.584, and tipCount afterwards is the old count or 0, 0 exactly at a day boundary with tips counted, and then rainVolume is 0 too; lastTipTime is never changed |
| RainGauge.HandleCommand | waterwise-iot/src/sensor_chuva.cpp:83-105 | either the counter and volume are zero afterwards or nothing changed; `reset_contador` on the command topic zeroes them, and nothing else changes the state; lastTipCount, lastTipTime and lastMsg are never touched |
| RainGauge.ResetThenQuietReport | waterwise-iot/src/sensor_chuva.cpp:96-100 | for every state, a reset command then a report with no new tips gives intensity -lastTipCount * 100.584, classified FRACA and inconsistent whenever lastTipCount > 0 |
| RainGauge.ReportClassQuantised | waterwise-iot/src/sensor_chuva.cpp:162-186 | a report is SEM_CHUVA with no new tips, MUITO_FORTE with flood risk for any new tip, FRACA for a negative difference, and never ATENCAO |
| RainGauge.ConsistentUnderTipsAndMeasure | waterwise-iot/src/sensor_chuva.cpp:162-168 | tips and reports keep 0 <= lastTipCount <= tipCount |
| RainGauge.PowerOnConsistent | waterwise-iot/src/sensor_chuva.cpp:22-24 | the power-on state satisfies 0 <= lastTipCount <= tipCount |
| RainGauge.ResetThenNegativeIntensity | waterwise-iot/src/sensor_chuva.cpp:96-100 | after five reported tips, a reset and a quiet window report -502.92 mm/h classified FRACA, and the counts are inconsistent |
| RainGauge.DailyResetBreaksConsistency | waterwise-iot/src/sensor_chuva.cpp:240-245 | for every consistent state with tips counted, a report at uptime 86 400 000 ms (previous report 20 s earlier) leaves lastTipCount at the old count above tipCount = 0 |
| RainGauge.ResetCountersFixed | waterwise-iot/src/sensor_chuva.cpp:96-100 | the corrected reset also zeroes lastTipCount |
| RainGauge.ReportCycleFixed | waterwise-iot/src/sensor_chuva.cpp:147-246 | with the corrected daily reset, a report is produced iff more than 10 s elapsed, and otherwise nothing changes |
| RainGauge.FixedStepsKeepConsistency | waterwise-iot/src/sensor_chuva.cpp:162-168 | with corrected resets every step keeps 0 <= lastTipCount <= tipCount, and every report has intensity >= 0 and is never FRACA |
| SoilProbe.StatusOf | waterwise-iot/src/sensor_umidade.cpp:162-179 | CRITICO_BAIXO iff soil < 30, MODERADO iff in [30,60), IDEAL iff in [60,85), SATURADO iff >= 85 |
| SoilProbe.FloodFlag | waterwise-iot/src/sensor_umidade.cpp:182 | the as-written flag is raised exactly for CRITICO_BAIXO readings and for SATURADO readings other than 85 |
| SoilProbe.FlagMatchesAlertExceptAt85 | waterwise-iot/src/sensor_umidade.cpp:172-182 | the published flood flag equals the emergency-alert condition for every soil value except exactly 85, where the soil is SATURADO and alerted but the flag is false |
| SoilProbe.FloodFlagFixed | waterwise-iot/src/sensor_umidade.cpp:182 | the corrected flag holds iff the emergency alert is sent |
| SoilProbe.Cycle | waterwise-iot/src/sensor_umidade.cpp:126-222 | lastMsg becomes now iff more than 30 s elapsed; a publication exists iff that and both air readings are numbers; it carries the clock reading as timestamp, both air readings, the soil percentage, the water level, the soil status, the as-written flood flag, and an alert iff the status is extreme |
| SoilProbe.NaNSkipsButRestartsWait | waterwise-iot/src/sensor_umidade.cpp:126-146 | a NaN reading skips the report but still restarts the wait: a valid reading one second later publishes nothing |
| FallbackStore.Missing | waterwise_api.py:243-244 | the missing fields are exactly the required fields absent from the payload, in required order |
| FallbackStore.Validate | waterwise_api.py:236-251 | an empty body is rejected as such; the payload passes iff it is non-empty and holds every required field; otherwise the missing list is exactly the required fields absent from the payload, in required order |
| FallbackStore.TruncateTowardZero | waterwise_api.py:333 | Python `int()` of a float: the integer between 0 and x within distance less than 1 |
| FallbackStore.PyInt | waterwise_api.py:333 | Python `int()` on a JSON value: an int unchanged, a float truncated toward zero, a bool as 0 or 1, no value for text or null |
| FallbackStore.PyFloat | waterwise_api.py:334-336 | Python `float()` on a JSON value: an int or float as its real value, a bool as 0.0 or 1.0, no value for text or null |
| FallbackStore.GetOrDefault | waterwise_api.py:338-339 | `dict.get`: the stored value when the key is present, the default otherwise |
| FallbackStore.BuildReading | waterwise_api.py:331-340 | a record exists iff the sensor id converts to int and the three measurements to float; it has the given id and timestamp, the converted sensor id and measurements, and farm_id/team_name as sent or their defaults |
| FallbackStore.BuildReadingRoundTrip | waterwise_api.py:331-340 | building a reading from the body that describes it gives the same reading back |
| FallbackStore.Persisted | waterwise_api.py:155-174 | after a write the next load sees the new store; after a failed open the old one; after a failed dump, which follows the truncating open, the empty store |
| FallbackStore.AppendReading | waterwise_api.py:342-346 | length min(n+1, 100); the new reading is last; the survivors are the newest of the old list in their order |
| FallbackStore.SaveReading | waterwise_api.py:326-361 | 400 iff the body is empty or a required field is missing, and its reason is the validation's: no JSON data, or exactly the missing fields in order; 201 iff the body is complete, converts and is written; a failed dump of an accepted reading empties the store with a 500; in every other unsaved case the store is unchanged; on success the id is the chosen one, the total is the new length, alerts are untouched, the list is the trimmed append, and the appended record is the one built from the body |
| FallbackStore.InsertReading | waterwise_api.py:329-346 | on success the id is the old length plus one and at most 100 readings remain |
| FallbackStore.FullStoreRepeatsId101 | waterwise_api.py:332-346 | with 100 stored readings, two valid posts in a row both get id 101, and the two newest stored readings share it |
| FallbackStore.NextIdFixed | waterwise_api.py:332 | the corrected id exceeds every stored id when ids increase |
| FallbackStore.InsertReadingFixed | waterwise_api.py:332 | on success the id is the corrected one |
| FallbackStore.AppendKeepsIdsIncreasing | waterwise_api.py:342-346 | appending an id above all stored ids and trimming keeps ids strictly increasing |
| FallbackStore.FixedIdsStayIncreasing | waterwise_api.py:331-346 | with the corrected id, stored ids stay strictly increasing, so distinct, across inserts |
| FallbackStore.BuildAlert | waterwise_api.py:443-449 | an alert record exists iff the producer id converts to int; it holds the converted producer id and keeps the severity code and description values as sent |
| FallbackStore.BuildAlertRoundTrip | waterwise_api.py:443-449 | building an alert from the body that describes it gives the same alert back |
| FallbackStore.InsertAlert | waterwise_api.py:383-464 | 400 iff the body is empty or one of the three fields is missing, and its reason is the validation's: no JSON data, or exactly the missing fields in order; 201 iff the body is complete, the producer id converts and the write succeeds; a failed dump of an accepted alert empties the store with a 500; in every other unsaved case the store is unchanged; on success the id is the old length plus one, the alert is appended with no trim and is the one built from the body, readings untouched |
| FallbackStore.PostedReadingIsStored | waterwise_api.py:329-361 | a reading posted as its own body and written gets a 201 and is stored as the newest reading with the length-plus-one id |
| FallbackStore.PostedAlertIsStored | waterwise_api.py:441-459 | an alert posted as its own body and written gets a 201 and is stored as the last alert with the length-plus-one id |
| FallbackStore.AlertIdsStayDense | waterwise_api.py:443-451 | alert ids stay equal to position plus one, so distinct |
| FallbackStore.SliceStart | waterwise_api.py:530 | Python's start index for `xs[a:]`: min(a, n) for a >= 0, max(a + n, 0) for a < 0 |
| FallbackStore.ListReadings | waterwise_api.py:528-531 | newest first; element j is the reading j places from the end; min(limit, n) items for limit >= 1; all n for limit 0; n + limit (at least 0) for negative limit; limit defaults to 10 |

## Left out

- Networking is not modelled: WiFi, MQTT, HTTP, the Flask routing and the
  Oracle SQL path (`init*`, `reconnect`, `setup_wifi`, `send*`, `publish*`,
  `enviarStatus`, `get_db_connection`, `test_db_connection`). The store
  models the API as if the database were unreachable.
- JSON building and serialisation are not modelled. Reports and alerts are
  records. The `round(x*100)/100` at q1/src/main.cpp:451-453 is float
  formatting.
- `simulateRealisticData` uses `random()`, so the snapshot is an input.
- The random substitute values at q1/src/main.cpp:359-360 are left out for
  the same reason.
- The Arduino `map()` and `constrain()` conversion from raw ADC counts to
  percentages is not modelled. Percentages are inputs.
- LED and buzzer patterns and `delay` are actuator side effects. This
  includes `statusLED` in waterwise/src/main.cpp:253-276.
- The rain gauge's ISR and `volatile` semantics are not modelled. The
  interrupt is one sequential step on the state.
- RainGauge.TipBurst, RainGauge.Measure: `tipCount` is an unbounded integer,
  so its 32-bit signed overflow after 2^31 tips is not modelled.
- Floats are `real`s. NaN, rounding and `intensityMmPerHour == 0` on inexact
  floats are not modelled.
- FallbackStore.PyInt, FallbackStore.PyFloat, FallbackStore.BuildReading,
  FallbackStore.BuildAlert: Python's parsing of
  numeric strings by `int()`/`float()` is not modelled. A text value is
  treated as a conversion failure, which the endpoint answers with 500. The
  source converts such text when it spells a number.
- Reading and writing the fallback file (`load_fallback_data`,
  `save_fallback_data`) are I/O. The store contents are an input, and the
  way the write ends is the `write` parameter. Which payloads make
  `json.dump` raise is not modelled, so a failed dump can happen for any
  accepted payload.
- The `received_fields` echo in the 400 body is not modelled.
- Malformed request JSON is not modelled.
- FallbackStore.SaveReading, FallbackStore.InsertAlert: each request is one
  atomic load, append and save, so requests are taken one at a time.
  Concurrent requests are not modelled. `app.run(debug=True)` at
  waterwise_api.py:644-648 serves requests on threads. A load that runs
  between another request's truncating open and its dump sees the empty
  store, and its save then drops every stored reading and alert. The same
  interleaving can repeat an id below 101, so the id results hold only
  for requests handled one at a time.
- FallbackStore.Validate: the request body is taken to be a JSON object
  (`Payload` is a map). An empty non-object body (`[]`, `""`, `0`) gets
  the same 400 as an empty object at waterwise_api.py:236. Other
  non-object bodies are not modelled: the `not in data` test at line 244
  then means list membership or substring search, or raises.
- Timestamps (`datetime.now().isoformat()`, `millis()`) are parameters.
- The `status` command publishes a status message and changes no state. It
  is modelled as no change.
- The emergency-alert messages are modelled only as the `emergencySent`
  flag.
- Python/waterwise_dashboard.py is a UI over SQL views and
  Python/config.py is environment configuration. Neither is part of this
  model.

## Findings

The as-written members remain the model of each sketch. The corrected ones
sit beside them with their intended property proved.

| source | as written | input that shows it | evidently intended | confidence | as-written member | corrected member |
|---|---|---|---|---|---|---|
| waterwise-iot/src/sensor_chuva.cpp:96-100 | the reset command zeroes `tipCount` and `rainVolume` but not the `static lastTipCount` | five tips reported, then `reset_contador`, then a window with no tips: intensity -502.92 mm/h, classified FRACA | the tips since the last report are never negative, so intensity is at least 0 | high, not executed | RainGauge.ResetThenQuietReport | RainGauge.FixedStepsKeepConsistency |
| waterwise-iot/src/sensor_chuva.cpp:240-245 | the daily reset runs after `lastTipCount := tipCount` and leaves it at the old count | a report at uptime 86 400 000 ms, 20 s after the previous one, with tips counted: afterwards lastTipCount > tipCount = 0 | same as above | high, not executed | RainGauge.DailyResetBreaksConsistency | RainGauge.FixedStepsKeepConsistency |
| waterwise_api.py:332-346 | `id_leitura` is the list length plus one, but the list is trimmed to 100 | a store holding 100 readings and two valid posts: both get id 101 | reading ids are distinct | high, not executed | FallbackStore.FullStoreRepeatsId101 | FallbackStore.FixedIdsStayIncreasing |
| waterwise-iot/src/sensor_umidade.cpp:172-182 | `risco_enchente` uses `> 85`, while SATURADO, which triggers the alert, starts at 85 | soil 85.0: status SATURADO, alert sent, flood flag false | the flag agrees with the alert | medium, not executed | SoilProbe.FloodFlag | waterwise-iot/src/sensor_umidade.cpp:182 | the as-written flag is raised exactly for CRITICO_BAIXO readings and for SATURADO readings other than 85 |
| SoilProbe.FlagMatchesAlertExceptAt85 | SoilProbe.FloodFlagFixed |

=== FILE: fallback_store.dfy ===
/** The JSON-file fallback of the WaterWise HTTP API (`waterwise_api.py`),
    used when the Oracle database cannot be reached: payload validation for
    readings and alerts, appending a reading with the trim to the newest 100,
    appending an alert, id assignment, and the newest-first listing.

    The file's contents are a `Store` value passed in and returned; how
    writing the file ended is the `write` parameter; the clock is the `now`
    parameter. */
module FallbackStore {
  import opened Wrappers

  /** A JSON value as the request body carries it. */
  datatype Value = VInt(i: int) | VFloat(f: real) | VBool(b: bool) | VText(s: string) | VNull

  /** A decoded JSON object. */
  type Payload = map<string, Value>

  const ReadingFields: seq<string> := ["id_sensor", "umidade_solo", "temperatura_ar", "precipitacao_mm"]
  const AlertFields: seq<string> := ["id_produtor", "codigo_severidade", "descricao_alerta"]
  const MaxReadings: nat := 100
  const DefaultLimit: int := 10
  const DefaultFarmId: string := "FARM_WaterWise_2025"
  const DefaultTeamName: string := "GRUPO_WATERWISE"

  datatype Reading = Reading(
    id: int,
    sensor: int,
    soilMoisture: real,
    airTemperature: real,
    precipitationMm: real,
    timestamp: string,
    farmId: Value,
    teamName: Value)

  datatype Alert = Alert(
    id: int,
    producer: int,
    severityCode: Value,
    description: Value,
    timestamp: string)

  /** The contents of the fallback file. */
  datatype Store = Store(readings: seq<Reading>, alerts: seq<Alert>)

  /** What `load_fallback_data` returns when there is no file, or when the
      file does not parse. */
  const EmptyStore: Store := Store([], [])

  /** How `save_fallback_data` ends. The file is opened with mode `'w'`,
      which empties it before `json.dump` writes anything; so a dump that
      raises part-way leaves a file that does not parse, and the next load
      sees the empty store. A failure to open leaves the old file. */
  datatype WriteOutcome = Written | OpenFailed | DumpFailed

  /** The store the next `load_fallback_data` sees after trying to write
      `updated` over `store`. */
  function Persisted(store: Store, updated: Store, write: WriteOutcome): (next: Store)
    ensures write == Written ==> next == updated
    ensures write == OpenFailed ==> next == store
    ensures write == DumpFailed ==> next.readings == [] && next.alerts == []
  {
    match write
    case Written => updated
    case OpenFailed => store
    case DumpFailed => EmptyStore
  }

  datatype Rejection = NoJsonData | MissingFields(missing: seq<string>)

  /** The endpoint's answer: 201 with the new id, 400, or 500. */
  datatype Response =
    | ReadingSaved(readingId: int, total: int)
    | AlertSaved(alertId: int)
    | BadRequest(reason: Rejection)
    | ServerError

  // ---------------------------------------------------------------------
  // Validation.

  /** `a` is `b` with some elements left out, order kept. */
  predicate IsSubsequence(a: seq<string>, b: seq<string>)
    decreases |b|
  {
    |a| == 0 || (|b| > 0 && ((a[0] == b[0] && IsSubsequence(a[1..], b[1..])) || IsSubsequence(a, b[1..])))
  }

  /** The required fields the payload lacks, in the order they are required. */
  function Missing(required: seq<string>, data: Payload): (m: seq<string>)
    decreases |required|
    ensures forall f :: f in m <==> f in required && f !in data
    ensures IsSubsequence(m, required)
  {
    if |required| == 0 then []
    else if required[0] in data then
      var rest := Missing(required[1..], data);
      assert IsSubsequence(rest, required[1..]);
      rest
    else
      var rest := Missing(required[1..], data);
      assert ([required[0]] + rest)[1..] == rest;
      [required[0]] + rest
  }

  /** The checks before any storage: an empty body, then missing fields. */
  function Validate(required: seq<string>, data: Payload): (rejection: Option<Rejection>)
    ensures rejection == Some(NoJsonData) <==> |data| == 0
    ensures rejection.None? <==> |data| > 0 && forall f :: f in required ==> f in data
    ensures rejection.Some? && rejection.value.MissingFields? ==>
      |rejection.value.missing| > 0 && IsSubsequence(rejection.value.missing, required)
    ensures rejection.Some? && rejection.value.MissingFields? ==>
      rejection.value.missing == Missing(required, data)
    ensures rejection.Some? && rejection.value.MissingFields? ==>
      forall f :: f in rejection.value.missing <==> f in required && f !in data
  {
    if |data| == 0 then Some(NoJsonData)
    else
      var missing := Missing(required, data);
      if |missing| > 0 then
        assert missing[0] in missing;
        Some(MissingFields(missing))
      else
        assert missing == [];
        None
  }

  // ---------------------------------------------------------------------
  // Python's `int()` and `float()` on JSON values.

  /** `int(x)` for a float: truncation toward zero. */
  function TruncateTowardZero(x: real): (n: int)
    ensures x >= 0.0 ==> 0 <= n && n as real <= x < n as real + 1.0
    ensures x < 0.0 ==> n <= 0 && n as real - 1.0 < x <= n as real
  {
    if x >= 0.0 then x.Floor else -((-x).Floor)
  }

  /** `int(v)`; `None` where Python raises, and for all text. */
  function PyInt(v: Value): (r: Option<int>)
    ensures r.None? <==> v.VText? || v.VNull?
    ensures v.VInt? ==> r == Some(v.i)
    ensures v.VFloat? ==> r == Some(TruncateTowardZero(v.f))
    ensures v.VBool? ==> r == Some(if v.b then 1 else 0)
  {
    match v
    case VInt(i) => Some(i)
    case VFloat(f) => Some(TruncateTowardZero(f))
    case VBool(b) => Some(if b then 1 else 0)
    case VText(_) => None
    case VNull => None
  }

  /** `float(v)`; `None` where Python raises, and for all text. */
  function PyFloat(v: Value): (r: Option<real>)
    ensures r.None? <==> v.VText? || v.VNull?
    ensures v.VInt? ==> r == Some(v.i as real)
    ensures v.VFloat? ==> r == Some(v.f)
    ensures v.VBool? ==> r == Some(if v.b then 1.0 else 0.0)
  {
    match v
    case VInt(i) => Some(i as real)
    case VFloat(f) => Some(f)
    case VBool(b) => Some(if b then 1.0 else 0.0)
    case VText(_) => None
    case VNull => None
  }

  /** `data.get(key, default)`. */
  function GetOrDefault(data: Payload, key: string, default: Value): (v: Value)
    ensures key in data ==> v == data[key]
    ensures key !in data ==> v == default
  {
    if key in data then data[key] else default
  }

  /** The `leitura` record built from a validated payload; `None` when a
      conversion raises. */
  function BuildReading(id: int, data: Payload, now: string): (r: Option<Reading>)
    requires forall f :: f in ReadingFields ==> f in data
    ensures r.Some? <==>
      && PyInt(data["id_sensor"]).Some? && PyFloat(data["umidade_solo"]).Some?
      && PyFloat(data["temperatura_ar"]).Some? && PyFloat(data["precipitacao_mm"]).Some?
    ensures r.Some? ==> r.value.id == id && r.value.timestamp == now
    ensures r.Some? ==> r.value.sensor == PyInt(data["id_sensor"]).value
    ensures r.Some? ==> r.value.soilMoisture == PyFloat(data["umidade_solo"]).value
    ensures r.Some? ==> r.value.airTemperature == PyFloat(data["temperatura_ar"]).value
    ensures r.Some? ==> r.value.precipitationMm == PyFloat(data["precipitacao_mm"]).value
    ensures r.Some? ==>
      r.value.farmId == if "farm_id" in data then data["farm_id"] else VText(DefaultFarmId)
    ensures r.Some? ==>
      r.value.teamName == if "team_name" in data then data["team_name"] else VText(DefaultTeamName)
  {
    var sensor := PyInt(data["id_sensor"]);
    var soil := PyFloat(data["umidade_solo"]);
    var temperature := PyFloat(data["temperatura_ar"]);
    var precipitation := PyFloat(data["precipitacao_mm"]);
    if sensor.None? || soil.None? || temperature.None? || precipitation.None? then None
    else Some(Reading(id, sensor.value, soil.value, temperature.value, precipitation.value, now,
                      GetOrDefault(data, "farm_id", VText(DefaultFarmId)),
                      GetOrDefault(data, "team_name", VText(DefaultTeamName))))
  }

  /** The request body a client sends for a reading record. */
  function ReadingPayload(r: Reading): Payload
  {
    map["id_sensor" := VInt(r.sensor), "umidade_solo" := VFloat(r.soilMoisture),
        "temperatura_ar" := VFloat(r.airTemperature), "precipitacao_mm" := VFloat(r.precipitationMm),
        "farm_id" := r.farmId, "team_name" := r.teamName]
  }

  /** Building a record from the body that describes it gives it back. */
  lemma BuildReadingRoundTrip(r: Reading)
    ensures forall f :: f in ReadingFields ==> f in ReadingPayload(r)
    ensures BuildReading(r.id, ReadingPayload(r), r.timestamp) == Some(r)
  {
  }

  // ---------------------------------------------------------------------
  // Readings: append and trim.

  /** Append, then keep only the newest 100 when the list grew past 100. */
  function AppendReading(readings: seq<Reading>, r: Reading): (out: seq<Reading>)
    ensures |out| == if |readings| + 1 > MaxReadings then MaxReadings else |readings| + 1
    ensures 0 < |out| <= MaxReadings
    ensures out[|out| - 1] == r
    ensures out[..|out| - 1] == readings[|readings| - (|out| - 1)..]
  {
    var appended := readings + [r];
    if |appended| > MaxReadings then appended[|appended| - MaxReadings..] else appended
  }

  /** The fallback part of `inserir_leitura`, with the new reading's id
      chosen by `newId`. A rejected or unconvertible payload writes nothing;
      an accepted one is lost when the write fails, and takes the whole
      file with it when the dump fails part-way. */
  function SaveReading(store: Store, data: Payload, now: string, write: WriteOutcome, newId: int)
    : (r: (Store, Response))
    ensures r.1.BadRequest? <==> |data| == 0 || exists f :: f in ReadingFields && f !in data
    ensures r.1.BadRequest? ==> Some(r.1.reason) == Validate(ReadingFields, data)
    ensures r.1.ReadingSaved? <==> |data| > 0 && Acceptable(data) && write == Written
    ensures !(Acceptable(data) && write == DumpFailed) && !r.1.ReadingSaved? ==> r.0 == store
    ensures Acceptable(data) && write == DumpFailed ==> r.0 == EmptyStore && r.1 == ServerError
    ensures r.1.ReadingSaved? ==> r.1.readingId == newId && r.1.total == |r.0.readings|
    ensures r.1.ReadingSaved? ==> r.0.alerts == store.alerts && |r.0.readings| > 0
    ensures r.1.ReadingSaved? ==> r.0.readings[|r.0.readings| - 1].id == newId
    ensures r.1.ReadingSaved? ==> r.0.readings == AppendReading(store.readings, r.0.readings[|r.0.readings| - 1])
    ensures r.1.ReadingSaved? ==> BuildReading(newId, data, now) == Some(r.0.readings[|r.0.readings| - 1])
    ensures r.1.ReadingSaved? || r.1.BadRequest? || r.1.ServerError?
  {
    match Validate(ReadingFields, data)
    case Some(rejection) => (store, BadRequest(rejection))
    case None =>
      match BuildReading(newId, data, now)
      case None => (store, ServerError)
      case Some(reading) =>
        var updated := store.(readings := AppendReading(store.readings, reading));
        if write == Written then (updated, ReadingSaved(reading.id, |updated.readings|))
        else (Persisted(store, updated, write), ServerError)
  }

  /** `inserir_leitura` on the fallback path: the id is the list length
      before the append, plus one. */
  function InsertReading(store: Store, data: Payload, now: string, write: WriteOutcome): (r: (Store, Response))
    ensures r.1.ReadingSaved? ==> r.1.readingId == |store.readings| + 1
    ensures r.1.ReadingSaved? ==> |r.0.readings| <= MaxReadings
  {
    SaveReading(store, data, now, write, |store.readings| + 1)
  }

  /** A payload that passes validation and converts. */
  predicate Acceptable(data: Payload)
  {
    && (forall f :: f in ReadingFields ==> f in data)
    && PyInt(data["id_sensor"]).Some? && PyFloat(data["umidade_solo"]).Some?
    && PyFloat(data["temperatura_ar"]).Some? && PyFloat(data["precipitacao_mm"]).Some?
  }

  /** Once the list is full, every new reading gets id 101: two readings in
      a row share it. */
  lemma FullStoreRepeatsId101(store: Store, d1: Payload, d2: Payload, t1: string, t2: string)
    requires |store.readings| == MaxReadings
    requires Acceptable(d1) && Acceptable(d2)
    ensures var (s1, resp1) := InsertReading(store, d1, t1, Written);
      var (s2, resp2) := InsertReading(s1, d2, t2, Written);
      resp1 == ReadingSaved(101, 100) && resp2 == ReadingSaved(101, 100)
      && s2.readings[98].id == s2.readings[99].id == 101
  {
  }

  /** Ids strictly increase from the oldest reading to the newest. */
  predicate IdsIncreasing(readings: seq<Reading>)
  {
    forall i, j :: 0 <= i < j < |readings| ==> readings[i].id < readings[j].id
  }

  /** The corrected id: one past the newest reading's id. */
  function NextIdFixed(readings: seq<Reading>): (id: int)
    ensures IdsIncreasing(readings) ==> forall k :: 0 <= k < |readings| ==> readings[k].id < id
  {
    if |readings| == 0 then 1 else readings[|readings| - 1].id + 1
  }

  function InsertReadingFixed(store: Store, data: Payload, now: string, write: WriteOutcome): (r: (Store, Response))
    ensures r.1.ReadingSaved? ==> r.1.readingId == NextIdFixed(store.readings)
  {
    SaveReading(store, data, now, write, NextIdFixed(store.readings))
  }

  /** Appending a reading whose id exceeds every stored id keeps the ids
      increasing, whatever the trim drops. */
  lemma AppendKeepsIdsIncreasing(readings: seq<Reading>, r: Reading)
    requires IdsIncreasing(readings)
    requires forall k :: 0 <= k < |readings| ==> readings[k].id < r.id
    ensures IdsIncreasing(AppendReading(readings, r))
  {
  }

  /** With the corrected id, ids keep increasing across inserts, so no two
      stored readings share an id even after the trim. */
  lemma FixedIdsStayIncreasing(store: Store, data: Payload, now: string, write: WriteOutcome)
    requires IdsIncreasing(store.readings)
    ensures IdsIncreasing(InsertReadingFixed(store, data, now, write).0.readings)
  {
    var (s1, resp) := InsertReadingFixed(store, data, now, write);
    if resp.ReadingSaved? {
      var last := s1.readings[|s1.readings| - 1];
      assert last.id == NextIdFixed(store.readings);
      AppendKeepsIdsIncreasing(store.readings, last);
    }
  }

  // ---------------------------------------------------------------------
  // Alerts: append without trimming.

  function BuildAlert(id: int, data: Payload, now: string): (a: Option<Alert>)
    requires forall f :: f in AlertFields ==> f in data
    ensures a.Some? <==> PyInt(data["id_produtor"]).Some?
    ensures a.Some? ==> a.value.id == id && a.value.timestamp == now
    ensures a.Some? ==> a.value.producer == PyInt(data["id_produtor"]).value
    ensures a.Some? ==> a.value.severityCode == data["codigo_severidade"]
    ensures a.Some? ==> a.value.description == data["descricao_alerta"]
  {
    match PyInt(data["id_produtor"])
    case None => None
    case Some(producer) =>
      Some(Alert(id, producer, data["codigo_severidade"], data["descricao_alerta"], now))
  }

  /** The request body a client sends for an alert record. */
  function AlertPayload(a: Alert): Payload
  {
    map["id_produtor" := VInt(a.producer), "codigo_severidade" := a.severityCode,
        "descricao_alerta" := a.description]
  }

  /** Building an alert from the body that describes it gives it back. */
  lemma BuildAlertRoundTrip(a: Alert)
    ensures forall f :: f in AlertFields ==> f in AlertPayload(a)
    ensures BuildAlert(a.id, AlertPayload(a), a.timestamp) == Some(a)
  {
  }

  /** A payload that passes the alert validation and converts. */
  predicate AlertAcceptable(data: Payload)
  {
    (forall f :: f in AlertFields ==> f in data) && PyInt(data["id_produtor"]).Some?
  }

  /** `inserir_alerta` on the fallback path; a failed write is handled as
      for readings. */
  function InsertAlert(store: Store, data: Payload, now: string, write: WriteOutcome): (r: (Store, Response))
    ensures r.1.BadRequest? <==> |data| == 0 || exists f :: f in AlertFields && f !in data
    ensures r.1.BadRequest? ==> Some(r.1.reason) == Validate(AlertFields, data)
    ensures r.1.AlertSaved? <==> |data| > 0 && AlertAcceptable(data) && write == Written
    ensures !(AlertAcceptable(data) && write == DumpFailed) && !r.1.AlertSaved? ==> r.0 == store
    ensures AlertAcceptable(data) && write == DumpFailed ==> r.0 == EmptyStore && r.1 == ServerError
    ensures r.1.AlertSaved? ==> r.1.alertId == |store.alerts| + 1
    ensures r.1.AlertSaved? ==> r.0.readings == store.readings && |r.0.alerts| == |store.alerts| + 1
    ensures r.1.AlertSaved? ==> r.0.alerts[..|store.alerts|] == store.alerts
    ensures r.1.AlertSaved? ==> r.0.alerts[|store.alerts|].id == r.1.alertId
    ensures r.1.AlertSaved? ==> BuildAlert(|store.alerts| + 1, data, now) == Some(r.0.alerts[|store.alerts|])
    ensures r.1.AlertSaved? || r.1.BadRequest? || r.1.ServerError?
  {
    match Validate(AlertFields, data)
    case Some(rejection) => (store, BadRequest(rejection))
    case None =>
      match BuildAlert(|store.alerts| + 1, data, now)
      case None => (store, ServerError)
      case Some(alert) =>
        var updated := store.(alerts := store.alerts + [alert]);
        if write == Written then (updated, AlertSaved(alert.id))
        else (Persisted(store, updated, write), ServerError)
  }

  /** Alert ids are positions plus one. */
  predicate AlertIdsDense(alerts: seq<Alert>)
  {
    forall k :: 0 <= k < |alerts| ==> alerts[k].id == k + 1
  }

  /** Alerts are never trimmed, so their ids stay dense (and so distinct). */
  lemma AlertIdsStayDense(store: Store, data: Payload, now: string, write: WriteOutcome)
    requires AlertIdsDense(store.alerts)
    ensures AlertIdsDense(InsertAlert(store, data, now, write).0.alerts)
  {
  }

  /** End to end: a reading posted as its own body and written is stored
      as the newest reading, with the id the store assigns. */
  lemma PostedReadingIsStored(store: Store, r: Reading)
    ensures var (s1, resp) := InsertReading(store, ReadingPayload(r), r.timestamp, Written);
      resp.ReadingSaved? && s1.readings[|s1.readings| - 1] == r.(id := |store.readings| + 1)
  {
    BuildReadingRoundTrip(r.(id := |store.readings| + 1));
  }

  /** End to end: an alert posted as its own body and written is stored as
      the last alert, with the id the store assigns. */
  lemma PostedAlertIsStored(store: Store, a: Alert)
    ensures var (s2, resp) := InsertAlert(store, AlertPayload(a), a.timestamp, Written);
      resp.AlertSaved? && s2.alerts[|store.alerts|] == a.(id := |store.alerts| + 1)
  {
    BuildAlertRoundTrip(a.(id := |store.alerts| + 1));
  }

  // ---------------------------------------------------------------------
  // Listing.

  /** The start index Python uses for `xs[a:]` on a list of length `n`. */
  function SliceStart(a: int, n: nat): (k: nat)
    ensures k <= n
    ensures 0 <= a ==> k == if a < n then a else n
    ensures a < 0 ==> k == if a + n < 0 then 0 else a + n
  {
    if a < 0 then (if a + n < 0 then 0 else a + n)
    else if a > n then n else a
  }

  /** The fallback part of `listar_leituras`: `leituras[-limit:]` reversed,
      newest first. A missing or non-integer `limit` means 10. */
  method ListReadings(readings: seq<Reading>, limitArg: Option<int>) returns (out: seq<Reading>)
    ensures var limit := limitArg.GetOr(DefaultLimit);
      |out| == |readings| - SliceStart(-limit, |readings|)
    ensures forall j :: 0 <= j < |out| ==> out[j] == readings[|readings| - 1 - j]
    ensures var limit := limitArg.GetOr(DefaultLimit);
      limit >= 1 ==> |out| == if limit < |readings| then limit else |readings|
    ensures limitArg == Some(0) ==> |out| == |readings|
    ensures var limit := limitArg.GetOr(DefaultLimit);
      limit < 0 ==> |out| == if |readings| + limit < 0 then 0 else |readings| + limit
  {
    var limit := limitArg.GetOr(DefaultLimit);
    if |readings| == 0 {
      return [];
    }
    var start := SliceStart(-limit, |readings|);
    out := [];
    var i := |readings|;
    while i > start
      invariant start <= i <= |readings|
      invariant |out| == |readings| - i
      invariant forall j :: 0 <= j < |out| ==> out[j] == readings[|readings| - 1 - j]
    {
      i := i - 1;
      out := out + [readings[i]];
    }
  }
}

=== FILE: flood_risk.dfy ===
/** The three-sensor flood-risk scorer of the q1 sketch (`analyzeFloodRisk`)
    and the soil/rain status labels computed beside it in `readAllSensors`.

    Soil moisture and rain intensity are percentages and temperature is in
    degrees Celsius; all three are `float` on the board and `real` here. The
    score adds a banded soil contribution, a banded rain contribution, a
    temperature contribution and a bonus for dry soil under heavy rain, then
    clamps the total to [0, 10]. */
module FloodRisk {

  /** One poll of the sensors, as the scorer reads it. */
  datatype Snapshot = Snapshot(
    temperature: real,
    airHumidity: real,
    soilMoisturePercent: real,
    rainIntensity: real)

  /** The categorical `severityCode` of the verdict. */
  datatype Severity = BAIXO | MEDIO | ALTO | CRITICO

  /** The verdict `analyzeFloodRisk` returns. */
  datatype Analysis = Analysis(
    riskLevel: int,
    floodAlert: bool,
    droughtAlert: bool,
    extremeWeatherAlert: bool,
    riskDescription: string,
    recommendation: string,
    absorptionCapacity: real,
    runoffRisk: real,
    severityCode: Severity)

  // Thresholds of the dry-soil/heavy-rain bonus and of the heat factor.
  const SoilDryThreshold: real := 25.0
  const RainHeavyThreshold: real := 70.0
  const TempExtremeThreshold: real := 35.0

  const MaxRisk: int := 10

  /** Arduino `constrain(x, lo, hi)`. */
  function Constrain(x: int, lo: int, hi: int): (r: int)
    requires lo <= hi
    ensures lo <= r <= hi
    ensures lo <= x <= hi ==> r == x
    ensures x < lo ==> r == lo
    ensures hi < x ==> r == hi
  {
    if x < lo then lo else if x > hi then hi else x
  }

  /** Soil factor: the drier the soil, the more it contributes. */
  function SoilPoints(soil: real): int
  {
    if soil < 15.0 then 4
    else if soil < 30.0 then 3
    else if soil < 50.0 then 1
    else 0
  }

  /** Rain factor: bands checked highest first, strict `>`. */
  function RainPoints(rain: real): int
  {
    if rain > 80.0 then 5
    else if rain > 60.0 then 4
    else if rain > 40.0 then 2
    else if rain > 20.0 then 1
    else 0
  }

  predicate ExtremeHeat(temperature: real)
  {
    temperature > TempExtremeThreshold
  }

  function TempPoints(temperature: real): int
  {
    if ExtremeHeat(temperature) then 1 else 0
  }

  /** The critical combination: dry soil and heavy rain at once. Its
      thresholds (25 and 70) are not any of the band edges. */
  predicate CriticalCombination(soil: real, rain: real)
  {
    soil < SoilDryThreshold && rain > RainHeavyThreshold
  }

  function BonusPoints(soil: real, rain: real): int
  {
    if CriticalCombination(soil, rain) then 2 else 0
  }

  /** The score before the clamp. */
  function RawScore(s: Snapshot): int
  {
    SoilPoints(s.soilMoisturePercent) + RainPoints(s.rainIntensity)
    + TempPoints(s.temperature) + BonusPoints(s.soilMoisturePercent, s.rainIntensity)
  }

  /** Severity bands over the clamped level, evaluated low to high. */
  function SeverityOf(level: int): Severity
  {
    if level <= 2 then BAIXO
    else if level <= 4 then MEDIO
    else if level <= 6 then ALTO
    else CRITICO
  }

  function DescriptionOf(level: int): string
  {
    if level <= 2 then "Baixo - Condições normais"
    else if level <= 4 then "Moderado - Atenção"
    else if level <= 6 then "Alto - Preparação"
    else if level <= 8 then "Muito Alto - Ação imediata"
    else "CRÍTICO - EMERGÊNCIA"
  }

  function RecommendationOf(level: int): string
  {
    if level <= 2 then "Monitoramento rotineiro"
    else if level <= 4 then "Intensificar monitoramento"
    else if level <= 6 then "Preparar sistemas de drenagem"
    else if level <= 8 then "Alertar autoridades"
    else "EVACUAR ÁREAS DE RISCO"
  }

  function MaxReal(a: real, b: real): real
  {
    if a >= b then a else b
  }

  /** `analyzeFloodRisk` over an explicit snapshot. */
  function AnalyzeFloodRisk(s: Snapshot): (a: Analysis)
    ensures 0 <= a.riskLevel <= MaxRisk
    ensures a.riskLevel == if RawScore(s) > MaxRisk then MaxRisk else RawScore(s)
    ensures a.floodAlert <==> a.riskLevel >= 7
    ensures a.severityCode == BAIXO <==> a.riskLevel <= 2
    ensures a.severityCode == MEDIO <==> 3 <= a.riskLevel <= 4
    ensures a.severityCode == ALTO <==> 5 <= a.riskLevel <= 6
    ensures a.severityCode == CRITICO <==> a.floodAlert
    ensures a.riskLevel <= 2 ==>
      a.riskDescription == "Baixo - Condições normais" && a.recommendation == "Monitoramento rotineiro"
    ensures 3 <= a.riskLevel <= 4 ==>
      a.riskDescription == "Moderado - Atenção" && a.recommendation == "Intensificar monitoramento"
    ensures 5 <= a.riskLevel <= 6 ==>
      a.riskDescription == "Alto - Preparação" && a.recommendation == "Preparar sistemas de drenagem"
    ensures 7 <= a.riskLevel <= 8 ==>
      a.riskDescription == "Muito Alto - Ação imediata" && a.recommendation == "Alertar autoridades"
    ensures a.riskLevel >= 9 ==>
      a.riskDescription == "CRÍTICO - EMERGÊNCIA" && a.recommendation == "EVACUAR ÁREAS DE RISCO"
    ensures a.droughtAlert <==> s.soilMoisturePercent < 15.0
    ensures a.extremeWeatherAlert <==> s.temperature > 35.0
    ensures a.absorptionCapacity + s.soilMoisturePercent == 100.0
    ensures a.runoffRisk >= 0.0
    ensures a.runoffRisk >= s.rainIntensity - s.soilMoisturePercent * 0.8
    ensures a.runoffRisk == 0.0 || a.runoffRisk == s.rainIntensity - s.soilMoisturePercent * 0.8
  {
    var level := Constrain(RawScore(s), 0, MaxRisk);
    Analysis(
      riskLevel := level,
      floodAlert := level >= 7,
      droughtAlert := s.soilMoisturePercent < 15.0,
      extremeWeatherAlert := ExtremeHeat(s.temperature),
      riskDescription := DescriptionOf(level),
      recommendation := RecommendationOf(level),
      absorptionCapacity := 100.0 - s.soilMoisturePercent,
      runoffRisk := MaxReal(0.0, s.rainIntensity - s.soilMoisturePercent * 0.8),
      severityCode := SeverityOf(level))
  }

  /** The raw sum never leaves [0, 12], and 12 is reached: the clamp to 10
      changes the result for the wettest, driest, hottest snapshots. */
  lemma RawScoreRange(s: Snapshot)
    ensures 0 <= RawScore(s) <= 12
    ensures RawScore(Snapshot(50.0, 90.0, 0.0, 100.0)) == 12
    ensures AnalyzeFloodRisk(Snapshot(50.0, 90.0, 0.0, 100.0)).riskLevel == 10
  {
  }

  /** Soil exactly at 15 takes the second band: three points, no drought. */
  lemma SoilBoundaryScenario()
    ensures var a := AnalyzeFloodRisk(Snapshot(20.0, 60.0, 15.0, 0.0));
      a.riskLevel == 3 && !a.droughtAlert && a.severityCode == MEDIO && !a.floodAlert
  {
  }

  /** Dry soil (20) under heavy rain (85): 3 + 5 + the bonus 2 makes 10. */
  lemma CriticalCombinationScenario()
    ensures var a := AnalyzeFloodRisk(Snapshot(20.0, 60.0, 20.0, 85.0));
      a.riskLevel == 10 && a.floodAlert && !a.droughtAlert && a.severityCode == CRITICO
      && a.recommendation == "EVACUAR ÁREAS DE RISCO"
  {
  }

  /** The bonus fires exactly for soil below 25 together with rain above 70,
      and then adds exactly two points to the raw sum. */
  lemma BonusIff(s: Snapshot)
    ensures RawScore(s) - SoilPoints(s.soilMoisturePercent) - RainPoints(s.rainIntensity)
              - TempPoints(s.temperature) == 2
            <==> s.soilMoisturePercent < 25.0 && s.rainIntensity > 70.0
  {
  }

  /** Heat adds exactly one point to the raw sum: two snapshots differing only
      in temperature, one hot and one not, differ by exactly one. */
  lemma HeatAddsOne(s: Snapshot, hot: real)
    requires !ExtremeHeat(s.temperature) && hot > 35.0
    ensures RawScore(s.(temperature := hot)) == RawScore(s) + 1
    ensures AnalyzeFloodRisk(s.(temperature := hot)).extremeWeatherAlert
    ensures !AnalyzeFloodRisk(s).extremeWeatherAlert
  {
  }

  lemma SoilPointsAntitone(drier: real, wetter: real)
    requires drier <= wetter
    ensures SoilPoints(drier) >= SoilPoints(wetter)
  {
  }

  lemma RainPointsMonotone(lighter: real, heavier: real)
    requires lighter <= heavier
    ensures RainPoints(lighter) <= RainPoints(heavier)
  {
  }

  /** Raising the raw score never lowers the clamped level. */
  lemma ConstrainMonotone(x: int, y: int)
    requires x <= y
    ensures Constrain(x, 0, MaxRisk) <= Constrain(y, 0, MaxRisk)
  {
  }

  /** Drier soil never lowers the risk level, other readings fixed. */
  lemma DrierSoilNeverLowersRisk(s: Snapshot, drier: real)
    requires drier <= s.soilMoisturePercent
    ensures AnalyzeFloodRisk(s.(soilMoisturePercent := drier)).riskLevel >= AnalyzeFloodRisk(s).riskLevel
  {
    SoilPointsAntitone(drier, s.soilMoisturePercent);
    ConstrainMonotone(RawScore(s), RawScore(s.(soilMoisturePercent := drier)));
  }

  /** Heavier rain never lowers the risk level, other readings fixed. */
  lemma HeavierRainNeverLowersRisk(s: Snapshot, heavier: real)
    requires s.rainIntensity <= heavier
    ensures AnalyzeFloodRisk(s.(rainIntensity := heavier)).riskLevel >= AnalyzeFloodRisk(s).riskLevel
  {
    RainPointsMonotone(s.rainIntensity, heavier);
    ConstrainMonotone(RawScore(s), RawScore(s.(rainIntensity := heavier)));
  }

  /** Severity rises with the level, and CRITICO starts exactly at 7. */
  function SeverityRank(c: Severity): int
  {
    match c
    case BAIXO => 0
    case MEDIO => 1
    case ALTO => 2
    case CRITICO => 3
  }

  lemma SeverityMonotone(lo: int, hi: int)
    requires lo <= hi
    ensures SeverityRank(SeverityOf(lo)) <= SeverityRank(SeverityOf(hi))
    ensures SeverityOf(lo) == CRITICO ==> SeverityOf(hi) == CRITICO
  {
  }

  // ---------------------------------------------------------------------
  // Status labels of `readAllSensors`.

  datatype SoilStatus = Critico | Seco | Normal | Saturado
  datatype RainStatus = SemChuva | Leve | Moderada | Intensa

  /** The label stored in `soilStatus`: one of four bands on the percentage. */
  function SoilStatusOf(soil: real): (st: SoilStatus)
    ensures st == Critico <==> soil < 20.0
    ensures st == Seco <==> 20.0 <= soil < 40.0
    ensures st == Normal <==> 40.0 <= soil < 70.0
    ensures st == Saturado <==> 70.0 <= soil
  {
    if soil < 20.0 then Critico
    else if soil < 40.0 then Seco
    else if soil < 70.0 then Normal
    else Saturado
  }

  /** The label stored in `rainStatus`: one of four bands on the percentage. */
  function RainStatusOf(rain: real): (st: RainStatus)
    ensures st == SemChuva <==> rain < 10.0
    ensures st == Leve <==> 10.0 <= rain < 30.0
    ensures st == Moderada <==> 30.0 <= rain < 70.0
    ensures st == Intensa <==> 70.0 <= rain
  {
    if rain < 10.0 then SemChuva
    else if rain < 30.0 then Leve
    else if rain < 70.0 then Moderada
    else Intensa
  }

  function SoilStatusRank(st: SoilStatus): int
  {
    match st
    case Critico => 0
    case Seco => 1
    case Normal => 2
    case Saturado => 3
  }

  function RainStatusRank(st: RainStatus): int
  {
    match st
    case SemChuva => 0
    case Leve => 1
    case Moderada => 2
    case Intensa => 3
  }

  /** Both labels are ordered bands: a larger reading never gets a lower label. */
  lemma StatusLabelsMonotone(a: real, b: real)
    requires a <= b
    ensures SoilStatusRank(SoilStatusOf(a)) <= SoilStatusRank(SoilStatusOf(b))
    ensures RainStatusRank(RainStatusOf(a)) <= RainStatusRank(RainStatusOf(b))
  {
  }
}

=== FILE: legacy_risk.dfy ===
/** The older flood-risk scorer of the `waterwise` sketch (`analyzeRisk`) and
    the alert gate of its `publishAlert`.

    It weighs drought by 3, the dry-soil/heavy-rain flood condition by 5 and
    heat by 2, has no clamp, and finally overwrites the description with one
    chosen by the level alone. */
module LegacyRisk {
  import opened Wrappers
  import opened Uint32

  /** One poll of the sensors, as the scorer reads it (percentages and
      degrees Celsius). */
  datatype Readings = Readings(
    temperature: real,
    humidity: real,
    soilMoisturePercent: real,
    rainIntensity: real)

  datatype RiskAnalysis = RiskAnalysis(
    floodRisk: bool,
    droughtRisk: bool,
    extremeWeather: bool,
    riskLevel: int,
    riskDescription: string)

  /** The payload of a published `FLOOD_RISK` alert. */
  datatype Alert = Alert(
    severity: int,
    message: string,
    timestamp: U32,
    soilMoisture: real,
    rainIntensity: real,
    temperature: real)

  const TempAlertMax: real := 35.0
  const AlertThreshold: int := 5

  const FloodMessage: string := "ALTO RISCO: Solo seco + chuva intensa = enchente!"

  /** The final description: a function of the level alone. */
  function DescriptionOf(level: int): string
  {
    if level == 0 then "Condições normais"
    else if level <= 3 then "Risco baixo - monitoramento"
    else if level <= 6 then "Risco médio - atenção"
    else "Risco alto - ação necessária"
  }

  /** `analyzeRisk`, step by step as the sketch writes it: the flood branch
      sets a description that the final banding then replaces. */
  function AnalyzeRisk(r: Readings): (a: RiskAnalysis)
    ensures a.droughtRisk <==> r.soilMoisturePercent < 20.0
    ensures a.floodRisk <==> r.rainIntensity > 70.0 && r.soilMoisturePercent < 30.0
    ensures a.extremeWeather <==> r.temperature > 35.0
    ensures a.riskLevel in {0, 2, 3, 5, 7, 8, 10}
    ensures 0 <= a.riskLevel <= 10
    ensures a.riskDescription == DescriptionOf(a.riskLevel)
    ensures a.riskDescription != FloodMessage
  {
    var start := RiskAnalysis(false, false, false, 0, "");
    var afterDrought :=
      if r.soilMoisturePercent < 20.0
      then start.(droughtRisk := true, riskLevel := start.riskLevel + 3)
      else start;
    var afterFlood :=
      if r.rainIntensity > 70.0 && r.soilMoisturePercent < 30.0
      then afterDrought.(floodRisk := true, riskLevel := afterDrought.riskLevel + 5,
                         riskDescription := FloodMessage)
      else afterDrought;
    var afterHeat :=
      if r.temperature > TempAlertMax
      then afterFlood.(extremeWeather := true, riskLevel := afterFlood.riskLevel + 2)
      else afterFlood;
    afterHeat.(riskDescription := DescriptionOf(afterHeat.riskLevel))
  }

  /** Each flag contributes a fixed weight: 3 for drought, 5 for flood, 2 for
      heat, and nothing else adds to the level. */
  lemma LevelIsWeightedSum(r: Readings)
    ensures var a := AnalyzeRisk(r);
      a.riskLevel == (if a.droughtRisk then 3 else 0) + (if a.floodRisk then 5 else 0)
                     + (if a.extremeWeather then 2 else 0)
  {
  }

  /** The `publishAlert` decision: an alert only for a level of 5 or more. */
  function PublishAlert(r: Readings, millis: U32): (alert: Option<Alert>)
    ensures alert.Some? <==> AnalyzeRisk(r).riskLevel >= 5
    ensures alert.Some? ==> alert.value.severity == AnalyzeRisk(r).riskLevel >= AlertThreshold
    ensures alert.Some? ==> alert.value.message == DescriptionOf(alert.value.severity)
    ensures alert.Some? ==> alert.value.timestamp == millis
    ensures alert.Some? ==> alert.value.soilMoisture == r.soilMoisturePercent
    ensures alert.Some? ==> alert.value.rainIntensity == r.rainIntensity
    ensures alert.Some? ==> alert.value.temperature == r.temperature
  {
    var risk := AnalyzeRisk(r);
    if risk.riskLevel >= AlertThreshold
    then Some(Alert(risk.riskLevel, risk.riskDescription, millis,
                    r.soilMoisturePercent, r.rainIntensity, r.temperature))
    else None
  }

  /** An alert goes out exactly when the flood condition holds, or drought
      and heat hold together (3 + 2 reaches the threshold without it). */
  lemma AlertIff(r: Readings, millis: U32)
    ensures var a := AnalyzeRisk(r);
      PublishAlert(r, millis).Some? <==> a.floodRisk || (a.droughtRisk && a.extremeWeather)
  {
  }

  /** Drought and heat alone, with no flood condition, still publish. */
  lemma DroughtAndHeatAlertWithoutFlood()
    ensures var r := Readings(36.0, 50.0, 10.0, 0.0);
      !AnalyzeRisk(r).floodRisk && PublishAlert(r, 0).Some?
      && PublishAlert(r, 0).value.severity == 5
      && PublishAlert(r, 0).value.message == "Risco médio - atenção"
  {
  }
}

=== FILE: rain_gauge.dfy ===
/** The tipping-bucket rain gauge of `sensor_chuva.cpp`.

    An interrupt counts bucket tips (each one is 0.2794 mm of rain), with a
    100 ms debounce on the 32-bit `millis()` clock. Every 10 seconds the main
    loop turns the tip count into an accumulated volume and an hourly
    intensity, classifies the intensity, estimates the time until the soil
    saturates and the absorption capacity left, and publishes a report. A
    remote command and a once-a-day check reset the counter.

    The sketch keeps this state in globals and in a function-local `static`
    (`lastTipCount`); here it is one immutable `Gauge` value threaded through
    the steps. */
module RainGauge {
  import opened Wrappers
  import opened Uint32

  const MmPerTip: real := 0.2794
  const DebounceMs: U32 := 100
  const ReportIntervalMs: U32 := 10000
  /** Ten-second windows per hour: the factor from mm per report to mm/h. */
  const WindowsPerHour: real := 360.0
  /** Rain the soil absorbs per hour before it starts to saturate. */
  const AbsorptionMmPerHour: real := 25.0
  /** Residual capacity used by the saturation-time estimate. */
  const ResidualCapacityMm: real := 50.0
  /** Total capacity used by the remaining-capacity estimate. */
  const TotalCapacityMm: real := 75.0
  const SecondsPerDay: int := 86400
  const CommandTopic: string := "waterwise/sensor2/comando"
  const ResetCommand: string := "reset_contador"

  /** The sketch's mutable globals: the tip counter, the accumulated volume,
      the time of the last counted tip, the time of the last report, and the
      tip count seen by the previous report. */
  datatype Gauge = Gauge(
    tipCount: int,
    rainVolume: real,
    lastTipTime: U32,
    lastMsg: U32,
    lastTipCount: int)

  /** State at power-on. */
  const PowerOn: Gauge := Gauge(0, 0.0, 0, 0, 0)

  // ---------------------------------------------------------------------
  // The interrupt.

  /** `rainInterrupt`: a falling edge at `now` is counted only when more
      than 100 ms have passed since the last counted tip, measured with
      unsigned wrap-around. */
  function RainInterrupt(g: Gauge, now: U32): (g': Gauge)
    ensures g'.tipCount == g.tipCount + 1 <==>
      (g.lastTipTime <= now && now - g.lastTipTime > 100)
      || (now < g.lastTipTime && now - g.lastTipTime + Modulus > 100)
    ensures g'.tipCount == g.tipCount || g'.tipCount == g.tipCount + 1
    ensures g'.lastTipTime != g.lastTipTime ==> g'.tipCount == g.tipCount + 1
    ensures g'.tipCount == g.tipCount + 1 ==> g'.lastTipTime == now
    ensures g'.rainVolume == g.rainVolume && g'.lastMsg == g.lastMsg
      && g'.lastTipCount == g.lastTipCount
  {
    if Elapsed(now, g.lastTipTime, DebounceMs)
    then g.(tipCount := g.tipCount + 1, lastTipTime := now)
    else g
  }

  /** A burst of falling edges, in order: the counter rises by at most one
      per edge and never falls. */
  function TipBurst(g: Gauge, edges: seq<U32>): (g': Gauge)
    decreases |edges|
    ensures g.tipCount <= g'.tipCount <= g.tipCount + |edges|
    ensures g'.rainVolume == g.rainVolume && g'.lastMsg == g.lastMsg
      && g'.lastTipCount == g.lastTipCount
  {
    if |edges| == 0 then g
    else TipBurst(RainInterrupt(g, edges[0]), edges[1..])
  }

  /** Bounce 50 ms after a counted tip is ignored, wherever the clock is. */
  lemma BounceIgnored(g: Gauge)
    ensures RainInterrupt(g, Add(g.lastTipTime, 50)) == g
  {
    SubAddRoundTrip(g.lastTipTime, 50);
  }

  /** Across the clock's wrap-around the debounce still measures elapsed
      time: a tip 110 ms after one counted just before the wrap is counted,
      although `now` is numerically smaller than `lastTipTime`. */
  lemma DebounceAcrossWrap(g: Gauge)
    requires g.lastTipTime == Modulus - 50
    ensures RainInterrupt(g, 60).tipCount == g.tipCount + 1
    ensures RainInterrupt(g, 60).lastTipTime == 60
  {
  }

  // ---------------------------------------------------------------------
  // Volume, intensity and classification.

  /** Accumulated volume in mm for a tip count. */
  function RainVolume(tips: int): real
  {
    tips as real * MmPerTip
  }

  /** Intensity in mm/h from the tips counted since the previous report. */
  function Intensity(tips: int, previousTips: int): real
  {
    ((tips - previousTips) as real * MmPerTip) * WindowsPerHour
  }

  datatype RainClass = SEM_CHUVA | FRACA | MODERADA | FORTE | MUITO_FORTE
  datatype AlertLevel = NORMAL | ATENCAO | EMERGENCIA

  /** The classification chain of the loop, which sets the class and the
      alert level together. */
  function Classify(intensity: real): (r: (RainClass, AlertLevel))
    ensures r.0 == SEM_CHUVA <==> intensity == 0.0
    ensures r.0 == FRACA <==> intensity != 0.0 && intensity < 2.5
    ensures r.0 == MODERADA <==> 2.5 <= intensity < 10.0
    ensures r.0 == FORTE <==> 10.0 <= intensity < 50.0
    ensures r.0 == MUITO_FORTE <==> 50.0 <= intensity
    ensures r.1 == ATENCAO <==> r.0 == FORTE
    ensures r.1 == EMERGENCIA <==> r.0 == MUITO_FORTE
    ensures r.1 != NORMAL <==> 10.0 <= intensity
  {
    if intensity == 0.0 then (SEM_CHUVA, NORMAL)
    else if intensity < 2.5 then (FRACA, NORMAL)
    else if intensity < 10.0 then (MODERADA, NORMAL)
    else if intensity < 50.0 then (FORTE, ATENCAO)
    else (MUITO_FORTE, EMERGENCIA)
  }

  /** `calcularTempoSaturacao`: -1 when the soil keeps up with the rain,
      otherwise the minutes until the residual capacity is used up. */
  function SaturationTime(intensity: real): (minutes: real)
    ensures minutes == -1.0 <==> intensity <= AbsorptionMmPerHour
    ensures intensity > AbsorptionMmPerHour ==>
      minutes > 0.0 && minutes * (intensity - AbsorptionMmPerHour) == ResidualCapacityMm * 60.0
  {
    if intensity <= AbsorptionMmPerHour then -1.0
    else
      var excess := intensity - AbsorptionMmPerHour;
      (ResidualCapacityMm / excess) * 60.0
  }

  /** Heavier rain never leaves more time before saturation. */
  lemma SaturationTimeDecreasing(lighter: real, heavier: real)
    requires AbsorptionMmPerHour < lighter < heavier
    ensures 0.0 < SaturationTime(heavier) < SaturationTime(lighter)
  {
  }

  /** `calcularCapacidadeRestante`: what is left of 75 mm after the
      accumulated volume, never negative. */
  function RemainingCapacity(volume: real): (left: real)
    ensures left >= 0.0
    ensures left >= TotalCapacityMm - volume
    ensures left == 0.0 || left == TotalCapacityMm - volume
    ensures volume >= 0.0 ==> left <= TotalCapacityMm
  {
    var left := TotalCapacityMm - volume;
    if 0.0 >= left then 0.0 else left
  }

  // ---------------------------------------------------------------------
  // The ten-second report.

  /** What one report publishes. */
  datatype Report = Report(
    timestamp: U32,
    rainDetected: bool,
    analogIntensity: int,
    volumeMm: real,
    intensityMmPerHour: real,
    classification: RainClass,
    totalTips: int,
    floodRisk: bool,
    saturationMinutes: real,
    remainingCapacityMm: real,
    alertLevel: AlertLevel,
    requiresAction: bool,
    emergencySent: bool)

  /** The body of the loop's report branch up to publication: the new
      volume and intensity, and `lastTipCount` catching up with the counter. */
  function Measure(g: Gauge, now: U32, rainDetected: bool, analog: int): (r: (Gauge, Report))
    ensures r.0.rainVolume == g.tipCount as real * MmPerTip
    ensures r.0.lastTipCount == r.0.tipCount == g.tipCount
    ensures r.0.lastMsg == now && r.0.lastTipTime == g.lastTipTime
    ensures r.1.volumeMm == r.1.totalTips as real * MmPerTip && r.1.totalTips == g.tipCount
    ensures r.1.intensityMmPerHour == (g.tipCount - g.lastTipCount) as real * 100.584
    ensures r.1.floodRisk <==> r.1.intensityMmPerHour > 25.0
    ensures r.1.requiresAction <==> r.1.alertLevel != NORMAL
    ensures r.1.emergencySent <==> r.1.alertLevel == EMERGENCIA
    ensures r.1.saturationMinutes == -1.0 <==> !r.1.floodRisk
    ensures (r.1.classification, r.1.alertLevel) == Classify(r.1.intensityMmPerHour)
    ensures r.1.saturationMinutes == SaturationTime(r.1.intensityMmPerHour)
    ensures r.1.remainingCapacityMm == RemainingCapacity(r.1.volumeMm)
    ensures r.1.timestamp == now && r.1.rainDetected == rainDetected && r.1.analogIntensity == analog
  {
    var volume := RainVolume(g.tipCount);
    var intensity := Intensity(g.tipCount, g.lastTipCount);
    var (cls, level) := Classify(intensity);
    var g1 := g.(rainVolume := volume, lastTipCount := g.tipCount, lastMsg := now);
    var report := Report(
      timestamp := now,
      rainDetected := rainDetected,
      analogIntensity := analog,
      volumeMm := volume,
      intensityMmPerHour := intensity,
      classification := cls,
      totalTips := g.tipCount,
      floodRisk := intensity > 25.0,
      saturationMinutes := SaturationTime(intensity),
      remainingCapacityMm := RemainingCapacity(volume),
      alertLevel := level,
      requiresAction := level != NORMAL,
      emergencySent := level == EMERGENCIA);
    (g1, report)
  }

  /** Clearing the counter and the volume, as both reset paths write it;
      the `static lastTipCount` is left as it was. */
  function ResetCounters(g: Gauge): (g': Gauge)
    ensures g'.tipCount == 0 && g'.rainVolume == 0.0
    ensures g'.lastTipCount == g.lastTipCount && g'.lastTipTime == g.lastTipTime
      && g'.lastMsg == g.lastMsg
  {
    g.(tipCount := 0, rainVolume := 0.0)
  }

  /** The once-a-day check at the end of the report branch: it reads the
      clock again (`uptimeMs`), and fires when the whole seconds of uptime
      are a multiple of a day and some tips were counted. */
  function DailyReset(g: Gauge, uptimeMs: U32): (g': Gauge)
    ensures (g'.tipCount == 0 && g'.rainVolume == 0.0) || g' == g
    ensures g'.tipCount == 0 <==> g.tipCount == 0 || (g.tipCount > 0 && (uptimeMs / 1000) % SecondsPerDay == 0)
    ensures g'.tipCount != 0 ==> g' == g
    ensures g'.lastTipCount == g.lastTipCount && g'.lastTipTime == g.lastTipTime
      && g'.lastMsg == g.lastMsg
  {
    if (uptimeMs / 1000) % SecondsPerDay == 0 && g.tipCount > 0 then ResetCounters(g) else g
  }

  /** One pass of `loop` (connection upkeep aside): a report every time
      more than 10 s have passed since the last one. */
  function ReportCycle(g: Gauge, now: U32, uptimeMs: U32, rainDetected: bool, analog: int)
    : (r: (Gauge, Option<Report>))
    ensures r.1.Some? <==> Elapsed(now, g.lastMsg, ReportIntervalMs)
    ensures r.1.None? ==> r.0 == g
    ensures r.1.Some? ==> r.0.lastMsg == now && r.0.lastTipCount == g.tipCount
    ensures r.1.Some? ==> r.1.value == Measure(g, now, rainDetected, analog).1
    ensures r.1.Some? ==>
      r.1.value.intensityMmPerHour == (g.tipCount - g.lastTipCount) as real * 100.584
      && r.1.value.totalTips == g.tipCount
    ensures r.1.Some? ==> r.0.tipCount == g.tipCount || r.0.tipCount == 0
    ensures r.1.Some? ==>
      (r.0.tipCount == 0 <==> g.tipCount == 0 || (g.tipCount > 0 && (uptimeMs / 1000) % SecondsPerDay == 0))
    ensures r.1.Some? && r.0.tipCount != 0 ==> r.0.rainVolume == g.tipCount as real * MmPerTip
    ensures r.1.Some? && r.0.tipCount == 0 ==> r.0.rainVolume == 0.0
    ensures r.0.lastTipTime == g.lastTipTime
  {
    if Elapsed(now, g.lastMsg, ReportIntervalMs) then
      var (g1, report) := Measure(g, now, rainDetected, analog);
      (DailyReset(g1, uptimeMs), Some(report))
    else (g, None)
  }

  /** The MQTT `callback`: `reset_contador` on the command topic clears the
      counter; `status` only publishes a status message; anything else is
      ignored. */
  function HandleCommand(g: Gauge, topic: string, message: string): (g': Gauge)
    ensures (g'.tipCount == 0 && g'.rainVolume == 0.0) || g' == g
    ensures topic == CommandTopic && message == ResetCommand ==> g'.tipCount == 0 && g'.rainVolume == 0.0
    ensures g' != g ==> topic == CommandTopic && message == ResetCommand
    ensures g'.lastTipCount == g.lastTipCount && g'.lastTipTime == g.lastTipTime
      && g'.lastMsg == g.lastMsg
  {
    if topic == CommandTopic && message == ResetCommand then ResetCounters(g) else g
  }

  // ---------------------------------------------------------------------
  // Properties of the report.

  /** Intensity is a whole number of tips times 100.584 mm/h, so a report
      is SEM_CHUVA, MUITO_FORTE (one tip is already past 50 mm/h) or, for a
      negative tip difference, FRACA; MODERADA, FORTE and the ATENCAO level
      never come out of the loop. */
  lemma ReportClassQuantised(g: Gauge, now: U32, rainDetected: bool, analog: int)
    ensures var rep := Measure(g, now, rainDetected, analog).1;
      && (g.tipCount == g.lastTipCount ==> rep.classification == SEM_CHUVA)
      && (g.tipCount > g.lastTipCount ==> rep.classification == MUITO_FORTE && rep.floodRisk)
      && (g.tipCount < g.lastTipCount ==> rep.classification == FRACA && !rep.floodRisk)
      && rep.alertLevel != ATENCAO
  {
  }

  /** The tip counter never runs behind the count seen by the last report. */
  predicate CountsConsistent(g: Gauge)
  {
    0 <= g.lastTipCount <= g.tipCount
  }

  /** Without a reset, tips and reports keep the counts consistent. */
  lemma ConsistentUnderTipsAndMeasure(g: Gauge, now: U32, rainDetected: bool, analog: int)
    requires CountsConsistent(g)
    ensures CountsConsistent(RainInterrupt(g, now))
    ensures CountsConsistent(Measure(g, now, rainDetected, analog).0)
  {
  }

  /** The reset command leaves `lastTipCount` behind: after five tips have
      been reported, a reset and a quiet window report a negative intensity
      of -502.92 mm/h, classified FRACA. */
  lemma ResetThenNegativeIntensity()
    ensures var g := Gauge(5, 5.0 * MmPerTip, 0, 0, 5);
      var cleared := HandleCommand(g, CommandTopic, ResetCommand);
      var rep := Measure(cleared, 20000, false, 0).1;
      rep.intensityMmPerHour == -502.92 && rep.classification == FRACA
      && !CountsConsistent(cleared)
  {
  }

  /** For every state, a reset command followed by a report with no new
      tips measures minus the tips the previous report saw, times 100.584
      mm/h: negative, and classified FRACA, whenever that report saw any. */
  lemma ResetThenQuietReport(g: Gauge, now: U32, rainDetected: bool, analog: int)
    ensures var cleared := HandleCommand(g, CommandTopic, ResetCommand);
      var rep := Measure(cleared, now, rainDetected, analog).1;
      && rep.intensityMmPerHour == -(g.lastTipCount as real) * 100.584
      && (g.lastTipCount > 0 ==> rep.classification == FRACA && !CountsConsistent(cleared))
  {
  }

  /** The daily reset has the same effect: it runs after `lastTipCount` has
      caught up, so the next report starts from a negative difference. */
  lemma DailyResetBreaksConsistency(g: Gauge)
    requires CountsConsistent(g) && g.tipCount > 0 && g.lastMsg == 86380000
    ensures var r := ReportCycle(g, 86400000, 86400000, false, 0);
      r.1.Some? && !CountsConsistent(r.0) && r.0.lastTipCount == g.tipCount > r.0.tipCount == 0
  {
  }

  // ---------------------------------------------------------------------
  // Corrected resets: clearing `lastTipCount` together with the counter.

  function ResetCountersFixed(g: Gauge): (g': Gauge)
    ensures g'.tipCount == 0 && g'.rainVolume == 0.0 && g'.lastTipCount == 0
    ensures g'.lastTipTime == g.lastTipTime && g'.lastMsg == g.lastMsg
  {
    g.(tipCount := 0, rainVolume := 0.0, lastTipCount := 0)
  }

  function DailyResetFixed(g: Gauge, uptimeMs: U32): Gauge
  {
    if (uptimeMs / 1000) % SecondsPerDay == 0 && g.tipCount > 0 then ResetCountersFixed(g) else g
  }

  function ReportCycleFixed(g: Gauge, now: U32, uptimeMs: U32, rainDetected: bool, analog: int)
    : (r: (Gauge, Option<Report>))
    ensures r.1.Some? <==> Elapsed(now, g.lastMsg, ReportIntervalMs)
    ensures r.1.None? ==> r.0 == g
  {
    if Elapsed(now, g.lastMsg, ReportIntervalMs) then
      var (g1, report) := Measure(g, now, rainDetected, analog);
      (DailyResetFixed(g1, uptimeMs), Some(report))
    else (g, None)
  }

  function HandleCommandFixed(g: Gauge, topic: string, message: string): Gauge
  {
    if topic == CommandTopic && message == ResetCommand then ResetCountersFixed(g) else g
  }

  /** With the corrected resets every step keeps the counts consistent, and
      every report then has a non-negative intensity and is never FRACA. */
  lemma FixedStepsKeepConsistency(
    g: Gauge, now: U32, uptimeMs: U32, topic: string, message: string,
    rainDetected: bool, analog: int)
    requires CountsConsistent(g)
    ensures CountsConsistent(RainInterrupt(g, now))
    ensures CountsConsistent(HandleCommandFixed(g, topic, message))
    ensures CountsConsistent(ReportCycleFixed(g, now, uptimeMs, rainDetected, analog).0)
    ensures var rep := ReportCycleFixed(g, now, uptimeMs, rainDetected, analog).1;
      rep.Some? ==> rep.value.intensityMmPerHour >= 0.0 && rep.value.classification != FRACA
  {
    ReportClassQuantised(g, now, rainDetected, analog);
  }

  lemma PowerOnConsistent()
    ensures CountsConsistent(PowerOn)
  {
  }
}

=== FILE: soil_probe.dfy ===
/** The soil-moisture probe of `sensor_umidade.cpp`: every 30 seconds it
    reads the air sensor and the soil percentage, labels the soil, raises a
    flood flag, and sends an emergency alert for the two extreme labels.

    A NaN from the air sensor is an absent reading (`None`). */
module SoilProbe {
  import opened Wrappers
  import opened Uint32

  const ReportIntervalMs: U32 := 30000

  datatype SoilStatus = CRITICO_BAIXO | MODERADO | IDEAL | SATURADO

  /** The `statusSolo` chain. */
  function StatusOf(soil: real): (st: SoilStatus)
    ensures st == CRITICO_BAIXO <==> soil < 30.0
    ensures st == MODERADO <==> 30.0 <= soil < 60.0
    ensures st == IDEAL <==> 60.0 <= soil < 85.0
    ensures st == SATURADO <==> 85.0 <= soil
  {
    if soil < 30.0 then CRITICO_BAIXO
    else if soil < 60.0 then MODERADO
    else if soil < 85.0 then IDEAL
    else SATURADO
  }

  /** The published `risco_enchente` flag, as written: strict `> 85`. It
      is raised for every CRITICO_BAIXO reading and for every SATURADO
      reading except 85 itself. */
  function FloodFlag(soil: real): (flag: bool)
    ensures flag <==> StatusOf(soil) == CRITICO_BAIXO || (StatusOf(soil) == SATURADO && soil != 85.0)
  {
    soil < 30.0 || soil > 85.0
  }

  /** The emergency alert goes out for the two extreme labels. */
  predicate EmergencyAlert(st: SoilStatus)
  {
    st == CRITICO_BAIXO || st == SATURADO
  }

  /** The flag and the alert disagree at exactly one reading: at 85 the soil
      is SATURADO and the alert is sent, while the flag says no flood risk. */
  lemma FlagMatchesAlertExceptAt85(soil: real)
    ensures FloodFlag(soil) == EmergencyAlert(StatusOf(soil)) <==> soil != 85.0
    ensures StatusOf(85.0) == SATURADO && EmergencyAlert(StatusOf(85.0)) && !FloodFlag(85.0)
  {
  }

  /** The corrected flag: its upper edge is the SATURADO edge. */
  function FloodFlagFixed(soil: real): (flag: bool)
    ensures flag <==> EmergencyAlert(StatusOf(soil))
  {
    soil < 30.0 || soil >= 85.0
  }

  /** What one cycle publishes. */
  datatype Publication = Publication(
    timestamp: U32,
    temperature: real,
    humidity: real,
    soilMoisturePercent: real,
    waterLevelPercent: real,
    status: SoilStatus,
    floodRisk: bool,
    emergencySent: bool)

  /** One pass of `loop` (connection upkeep aside). The time of the last
      report advances before the air reading is checked, so a NaN reading
      skips the report and still restarts the 30-second wait. */
  function Cycle(lastMsg: U32, now: U32, humidity: Option<real>, temperature: Option<real>,
                 soil: real, waterLevel: real): (r: (U32, Option<Publication>))
    ensures Elapsed(now, lastMsg, ReportIntervalMs) ==> r.0 == now
    ensures !Elapsed(now, lastMsg, ReportIntervalMs) ==> r.0 == lastMsg
    ensures r.1.Some? <==>
      Elapsed(now, lastMsg, ReportIntervalMs) && humidity.Some? && temperature.Some?
    ensures r.1.Some? ==> r.1.value.status == StatusOf(soil) && r.1.value.floodRisk == FloodFlag(soil)
    ensures r.1.Some? ==> r.1.value.emergencySent == EmergencyAlert(r.1.value.status)
    ensures r.1.Some? ==> r.1.value.temperature == temperature.value && r.1.value.humidity == humidity.value
    ensures r.1.Some? ==> r.1.value.timestamp == now
    ensures r.1.Some? ==> r.1.value.soilMoisturePercent == soil && r.1.value.waterLevelPercent == waterLevel
  {
    if !Elapsed(now, lastMsg, ReportIntervalMs) then (lastMsg, None)
    else if humidity.None? || temperature.None? then (now, None)
    else
      var st := StatusOf(soil);
      (now, Some(Publication(now, temperature.value, humidity.value, soil, waterLevel,
                             st, FloodFlag(soil), EmergencyAlert(st))))
  }

  /** A NaN reading costs a whole interval: the next report can come no
      sooner than 30 s after the skipped one. */
  lemma NaNSkipsButRestartsWait(lastMsg: U32, now: U32, temperature: Option<real>,
                                soil: real, waterLevel: real)
    requires Elapsed(now, lastMsg, ReportIntervalMs)
    ensures var r := Cycle(lastMsg, now, None, temperature, soil, waterLevel);
      r.1.None? && r.0 == now
      && Cycle(r.0, Add(now, 1000), Some(50.0), Some(20.0), soil, waterLevel).1.None?
  {
  }
}

=== FILE: uint32.dfy ===
/** The 32-bit `unsigned long` arithmetic the ESP32 sketches use on the
    `millis()` clock. The clock wraps to 0 after 2^32 milliseconds (about 49.7
    days), so every "time since" computation is a subtraction modulo 2^32. */
module Uint32 {

  const Modulus: int := 0x1_0000_0000

  /** A value of C++ type `unsigned long` on the target board. */
  type U32 = x: int | 0 <= x < Modulus

  /** Unsigned `a + b`, wrapping past 2^32 - 1. */
  function Add(a: U32, b: U32): (s: U32)
    ensures a + b < Modulus ==> s == a + b
    ensures a + b >= Modulus ==> s == a + b - Modulus
  {
    (a + b) % Modulus
  }

  /** Unsigned `a - b`: when `b` is later than `a` the difference wraps
      around instead of going negative. */
  function Sub(a: U32, b: U32): (d: U32)
    ensures b <= a ==> d == a - b
    ensures a < b ==> d == a - b + Modulus
  {
    (a - b) % Modulus
  }

  /** Wrapping subtraction undoes wrapping addition: the time elapsed from
      `since` to `since + delta` is `delta`, however the clock wrapped. */
  lemma SubAddRoundTrip(since: U32, delta: U32)
    ensures Sub(Add(since, delta), since) == delta
  {
  }

  /** The predicate the sketches use to gate periodic work:
      `now - last > interval`, computed in unsigned 32-bit arithmetic. */
  predicate Elapsed(now: U32, last: U32, interval: U32)
  {
    Sub(now, last) > interval
  }
}

=== FILE: wrappers.dfy ===
/** Optional values: a sensor reading that may be missing (a NaN from the
    humidity/temperature driver), a query argument that may be absent, a
    conversion that may fail. */
module Wrappers {

  datatype Option<+T> = None | Some(value: T) {

    /** The carried value, or `default` when there is none. */
    function GetOr(default: T): (r: T)
      ensures Some? ==> r == value
      ensures None? ==> r == default
    {
      match this
      case Some(v) => v
      case None => default
    }
  }
}
